=== FILE: README.md ===
# Dialogue management of the wellbeing chatbot, in Dafny

`chatbot.py` wraps a pretrained causal language model in a console chat loop.
This project models the loop's own logic:

- the command each input line stands for: blank, `exit`/`quit`/`q`, `clear`/`/clear`, or an utterance;
- the turn list that starts from the system priming turn and grows by one user turn and one assistant turn per exchange;
- the rendering of the turns into the prompt text (`format_dialogue`);
- the token budget derived from the context window;
- the left trim that keeps only the most recent prompt tokens (`left_trim`);
- the post-processing of the decoded model output: cutting at the first marker that opens a new turn of any role, and falling back to a fixed sentence.

The tokenizer is a parameter of type `string -> Encoding`. Sampling makes the generated text arbitrary, so the decoded reply is an input to each step of the loop.

Modules:

- `PyStr` (`pystr.dfy`) models the Python string built-ins the loop relies on: `strip`, `lower`, `in`, `split(sep)[0]` and `sep.join`. It also has a reference `Split` on one character, which is the inverse of `join`.
- `Context` (`context.dfy`) holds the budget arithmetic, Python's negative slice `s[-k:]`, and `left_trim`.
- `Dialogue` (`dialogue.dfy`) holds the turn tags, the priming text and `format_dialogue`.
- `Reply` (`reply.dfy`) holds the stop-marker cut and the fallback.
- `Chat` (`chat.dfy`) holds the command dispatch, the session state machine, the loop over a sequence of inputs, and the token input handed to the model.

The budget is not always below the context window. `max(32, ctx_window - 144)` is 32 whenever the window is at most 176 tokens, so the budget is below the window only when the window exceeds 32. `Context.Budget` states this, both directions of the condition included.

Stored assistant replies may span several lines: only the three role markers are cut, not every newline. The two statements that recover the turns from a prompt, `Dialogue.FormatDialogueRecoversTurns` and `Dialogue.FormatDialogueInjective`, are therefore limited to single-line turns and do not cover every turn list the loop can reach. `Dialogue.MultiLineTurnsCollide` shows the limit: the single turn `"a\nb"` and the two turns `"a"` and `"b"` render to the same prompt.

## Model

| member | source | states |
|---|---|---|
| `Context.Budget` | chatbot.py:43-44 | The budget is at least 32. From a window of 176 tokens up, budget + 128 new tokens + 16 margin fill the window exactly. Up to 176 it is pinned at 32. It is below the window exactly when the window exceeds 32 |
| `Context.DefaultBudget` | chatbot.py:42-44 | When the configuration has no `n_positions`, the window defaults to 1024 and the budget is 880 |
| `Context.PySliceFrom` | chatbot.py:28 | Python's `s[start:]` is a suffix of `s`. A negative start keeps the last `-start` elements, or all of `s` when that is too many. A start past the end gives the empty sequence |
| `Context.NegativeZeroKeepsAll` | chatbot.py:28 | `s[-0:]` keeps the whole sequence, which is why `left_trim` needs `keep >= 1` |
| `Context.LeftTrim` | chatbot.py:25-28 | Both rows come back unchanged when the ids fit in `keep`. Otherwise the ids are exactly their last `keep` elements, and so is the mask when it is long enough. Equal-length rows stay equal in length and are cut at the same offset |
| `Context.LeftTrimIdempotent` | chatbot.py:25-28 | Trimming a trimmed pair again changes nothing |
| `Dialogue.UserTurn` | chatbot.py:69 | A user turn is the tag `User: ` followed by the utterance, which is recoverable from the turn |
| `Dialogue.AssistantTurn` | chatbot.py:111 | An assistant turn is the tag `Assistant: ` followed by the reply, which is recoverable from the turn |
| `Dialogue.FormatDialogue` | chatbot.py:30-38 | The prompt always ends with `\nAssistant:`, begins with the first turn, is `t + "\nAssistant:"` for a single turn `t`, and is the cue alone for no turns |
| `Dialogue.FormatDialogueAppend` | chatbot.py:69-72 | Appending a turn inserts one line in front of the cue and keeps all earlier text |
| `Dialogue.FormatDialogueRecoversTurns` | chatbot.py:38 | For single-line turns, splitting the text in front of the cue at the newlines gives back the turns |
| `Dialogue.FormatDialogueInjective` | chatbot.py:38 | Two different lists of single-line turns never render to the same prompt |
| `Dialogue.MultiLineTurnsCollide` | chatbot.py:38 | A turn holding a newline renders exactly like two turns, so without the single-line condition the prompt does not determine the turns |
| `PyStr.TrimStartRemovesBlanks` | chatbot.py:55 | `lstrip` keeps a suffix and removes only whitespace |
| `PyStr.TrimEndRemovesBlanks` | chatbot.py:55 | `rstrip` keeps a prefix and removes only whitespace |
| `PyStr.Strip` | chatbot.py:55 | `strip` leaves no whitespace at either end and never lengthens the text |
| `PyStr.StripRemovesOnlyBlanks` | chatbot.py:55 | What `strip` keeps occurs in the input, and everything outside it is whitespace |
| `PyStr.StripIsInfix` | chatbot.py:98 | What `strip` keeps is a substring of its input |
| `PyStr.StripStripped` | chatbot.py:103 | `strip` leaves text without surrounding whitespace unchanged |
| `PyStr.StripIdempotent` | chatbot.py:103 | Stripping twice is stripping once |
| `PyStr.Contains` | chatbot.py:102 | `p in s`: some position of `s` starts a copy of `p`. The empty string occurs everywhere, and nothing occurs in a shorter string; `PyStr.Find` locates the first occurrence exactly when it holds |
| `PyStr.Find` | chatbot.py:102 | A position is found exactly when `p in s`, and it is the first occurrence |
| `PyStr.FindFirstOccurrence` | chatbot.py:102-103 | An occurrence with no earlier copy of the pattern's first character is the first occurrence |
| `PyStr.SplitHead` | chatbot.py:103 | `s.split(sep)[0]` is the prefix of `s` before the first occurrence of `sep`: no occurrence starts inside it, `sep` follows it when `sep in s`, and it is all of `s` otherwise |
| `PyStr.Lower` | chatbot.py:58 | `lower` keeps the length and maps every character on its own |
| `PyStr.LowerIdempotent` | chatbot.py:58 | Lowering twice is lowering once |
| `PyStr.StripLower` | chatbot.py:55-58 | Lowering commutes with stripping |
| `PyStr.Split` | chatbot.py:38 | The reference split returns at least one piece, and no piece holds the separator |
| `PyStr.Join` | chatbot.py:38 | `sep.join(ts)` is empty for no items and begins with the first item; `PyStr.JoinSnoc` adds the separator and item rule, and `PyStr.JoinSplit` and `PyStr.SplitJoin` show `Split` is its inverse |
| `PyStr.JoinSnoc` | chatbot.py:38 | Joining one more item adds the separator and the item at the end |
| `PyStr.JoinSplit` | chatbot.py:38 | Joining the pieces of a split restores the text |
| `PyStr.SplitJoin` | chatbot.py:38 | Splitting the join of separator-free items restores the items |
| `Reply.FallbackWellFormed` | chatbot.py:105-106 | The fallback sentence is non-empty, stripped and free of role markers |
| `Reply.SingleLineIsMarkerFree` | chatbot.py:101 | Every stop marker starts with a newline, so single-line text contains none of them |
| `Reply.CutAt` | chatbot.py:101-103 | One cut removes every occurrence of its marker and keeps a substring of the reply. Without the marker the reply is unchanged. With it, the result is the stripped text before the first occurrence. A stripped non-blank reply keeps a non-empty prefix |
| `Reply.PostProcess` | chatbot.py:98-106 | The stored reply is non-empty, stripped and free of all three markers. Blank decoded text gives the fallback; any other text gives a non-empty prefix of its stripped form |
| `Reply.EarliestMarker` | chatbot.py:101-103 | The index where the first role marker of any kind starts, or the length of the text when none occurs: no marker starts before it and one starts at it |
| `Reply.CutKeepsEarliestCut` | chatbot.py:101-103 | A cut at any one marker leaves a stripped non-blank reply stripped and non-blank, and does not change where the earliest marker cut falls |
| `Reply.ThreeCutsAreEarliestCut` | chatbot.py:101-103 | For stripped, non-blank text (the reply is always stripped at chatbot.py:98), cutting at the user, system and assistant markers in turn equals a single cut at whichever marker comes first in the text |
| `Reply.PostProcessCutsAtEarliestMarker` | chatbot.py:98-106 | For non-blank decoded text, the stored reply is the stripped text before the earliest role marker of any kind |
| `Reply.PostProcessAtFirstNewlineMarker` | chatbot.py:101-103 | For stripped non-blank text, a marker with no newline in front of it is the first one, so the reply is the stripped text before it |
| `Reply.PostProcessCutsAtFirstMarker` | chatbot.py:101-103 | `"Ok.\nSystem: a\nUser: b"` becomes `"Ok."`: the earlier system marker decides the cut even though the user marker is tried first |
| `Reply.PostProcessKeepsCleanReply` | chatbot.py:101-106 | A stripped, non-empty reply without markers passes through unchanged |
| `Reply.PostProcessMarkerFreeText` | chatbot.py:98-106 | Decoded text without markers and not blank comes back only stripped |
| `Reply.PostProcessIdempotent` | chatbot.py:98-106 | Post-processing a processed reply changes nothing |
| `Reply.PostProcessCutsUserTurn` | chatbot.py:101-103 | `"Sure thing.\nUser: thanks"` becomes `"Sure thing."` |
| `Chat.Parse` | chatbot.py:55-66 | A line is blank exactly when it strips to nothing. An utterance is the stripped line, non-empty and not lower-cased |
| `Chat.ParseCommandWords` | chatbot.py:58-62 | A line is an exit command exactly when its stripped, lowered text is `exit`, `quit` or `q`. It is a clear command exactly when that text is `clear` or `/clear` |
| `Chat.ParseIgnoresSurroundingBlanks` | chatbot.py:55 | Blanks around a line never change its command |
| `Chat.ParseCommandsIgnoreCase` | chatbot.py:58-62 | Lower-casing a command line gives the same command |
| `Chat.ParseKeepsUtteranceCase` | chatbot.py:58-69 | Lower-casing an utterance line lower-cases only the utterance, so the case of what was typed reaches the turn list |
| `Chat.ParseShoutedQuit` | chatbot.py:55-61 | `"  QUIT  "` is the exit command |
| `Chat.ParseSlashClear` | chatbot.py:62-63 | `"/Clear"` is the clear command |
| `Chat.ParseKeepsSentence` | chatbot.py:55-69 | `" I feel Anxious "` is the utterance `"I feel Anxious"` with its capitals |
| `Chat.Step` | chatbot.py:54-111 | The session ends exactly on an exit word. A blank line changes nothing. Exit keeps the turns. Clear leaves exactly the priming turn, whatever came before. An utterance appends exactly the user turn and the processed reply and leaves earlier turns untouched |
| `Chat.StartWellFormed` | chatbot.py:52 | The initial turn list is well formed |
| `Chat.ExchangeKeepsWellFormed` | chatbot.py:69-111 | Appending a user turn and a processed reply keeps the list well formed |
| `Chat.StepKeepsWellFormed` | chatbot.py:52-111 | Every step keeps the turn list well formed: priming turn first, odd count, alternating user and assistant turns, each stored reply non-empty and marker-free |
| `Chat.Run` | chatbot.py:54-111 | The loop over a sequence of inputs: an ended session takes no more input, and without an exit word among the inputs the session does not end. `Chat.RunKeepsWellFormed` and `Chat.RunEndsOnExitOnly` state the invariant and the exact ending condition |
| `Chat.RunKeepsWellFormed` | chatbot.py:52-111 | Over any sequence of inputs the turn list stays well formed at the head of the loop |
| `Chat.RunEndsOnExitOnly` | chatbot.py:54-61 | A running session ends exactly when some input line is an exit word |
| `Chat.PromptFor` | chatbot.py:69-72 | The prompt for an utterance is the earlier prompt text, a newline, the user turn and the assistant cue |
| `Chat.GenerationInput` | chatbot.py:72-79 | The model input never exceeds the budget. It is the whole tokenised prompt when that fits, and otherwise its most recent `budget` tokens, with the mask cut at the same offset |

## Left out

- Loading the model and tokenizer, and choosing device and dtype (chatbot.py:14-23): foreign library calls.
- Tokenization is an opaque parameter. That includes the tokenizer's own `truncation=True` limit (chatbot.py:74), which is internal to the library.
- `model.generate` and `tok.decode` (chatbot.py:81-98): the decoded text is an input to each step, because sampling makes it arbitrary.
- Generation options (chatbot.py:85-94): the float sampling parameters `temperature`, `top_p` and `repetition_penalty`, the integer `top_k` and `no_repeat_ngram_size`, the token ids and the `do_sample` and `use_cache` flags are passed through to the library. `max_new_tokens` bounds the number of tokens in the reply, which the model does not bound because the decoded text is an arbitrary input; the same 128 enters the budget as `Context.MaxNew`.
- `input` and `print` (chatbot.py:46, 55, 60, 65, 108): console I/O. Each step takes the typed line as an argument instead.
- `hist_ids` and `hist_mask` (chatbot.py:49, 64): set but never read.
- Interrupting the loop with an exception such as end of input: not handled by the source either.
- `PyStr.Strip`: Python's `str.strip` removes every Unicode whitespace character; the model treats only space, tab, newline, carriage return, vertical tab and form feed as whitespace.
- `PyStr.Lower`: Python's `str.lower` follows Unicode case mapping, which can also change the length of the text; the model lowers only the ASCII letters `A`-`Z`.
- `Chat.Step`: requires a session that has not ended, because the loop exits at the exit word and never steps again.
- The other scripts of the repository, such as the image labelling utility, are not part of this model.

=== FILE: chat.dfy ===
/** The interactive loop of `main`: the command read from each input line,
    the turn list it updates, and the token input handed to the model. */
module Chat {
  import opened PyStr
  import opened Context
  import opened Dialogue
  import opened Reply

  const ExitWords: set<string> := {"exit", "quit", "q"}
  const ClearWords: set<string> := {"clear", "/clear"}

  /** What one input line asks for. */
  datatype Command = Blank | Exit | Clear | Say(text: string)

  /** The dispatch at the top of the loop, on the stripped line: a blank line
      is skipped, the exit and clear words are matched without regard to
      case, and anything else is an utterance kept exactly as typed (after
      stripping). */
  function Parse(line: string): (c: Command)
    ensures c.Blank? <==> Strip(line) == ""
    ensures c.Say? ==> c.text == Strip(line) && c.text != ""
  {
    var u := Strip(line);
    if u == "" then Blank
    else if Lower(u) in ExitWords then Exit
    else if Lower(u) in ClearWords then Clear
    else Say(u)
  }

  /** The exit and clear words, in any case, are commands; no other line is. */
  lemma ParseCommandWords(line: string)
    ensures Parse(line).Exit? <==> Lower(Strip(line)) in ExitWords
    ensures Parse(line).Clear? <==> Lower(Strip(line)) in ClearWords
  {
  }

  /** Blanks around the line never change the command. */
  lemma ParseIgnoresSurroundingBlanks(line: string)
    ensures Parse(Strip(line)) == Parse(line)
  {
    StripIdempotent(line);
  }

  /** The commands are case-insensitive. */
  lemma ParseCommandsIgnoreCase(line: string)
    ensures !Parse(line).Say? ==> Parse(Lower(line)) == Parse(line)
  {
    var u := Strip(line);
    var lu := Lower(u);
    StripLower(line);
    LowerIdempotent(u);
    assert Strip(Lower(line)) == lu && Lower(lu) == lu;
    assert u == "" <==> lu == "";
  }

  /** An utterance is not lower-cased by the dispatch: lower-casing the line
      lower-cases only its text. */
  lemma ParseKeepsUtteranceCase(line: string)
    ensures Parse(line).Say? ==> Parse(Lower(line)) == Say(Lower(Parse(line).text))
  {
    var u := Strip(line);
    var lu := Lower(u);
    StripLower(line);
    LowerIdempotent(u);
    assert Strip(Lower(line)) == lu && Lower(lu) == lu;
    assert u == "" <==> lu == "";
  }

  /** The exit word is recognised in capitals and with blanks around it. */
  lemma ParseShoutedQuit()
    ensures Parse("  QUIT  ") == Exit
  {
    var line := "  QUIT  ";
    assert TrimStart(line) == "QUIT  ";
    assert TrimEnd("QUIT  ") == "QUIT";
    assert Lower("QUIT") == "quit";
  }

  /** `/clear` is a command in any case. */
  lemma ParseSlashClear()
    ensures Parse("/Clear") == Clear
  {
    assert Strip("/Clear") == "/Clear";
    assert Lower("/Clear") == "/clear";
  }

  /** A sentence is kept as typed, capitals included. */
  lemma ParseKeepsSentence()
    ensures Parse(" I feel Anxious ") == Say("I feel Anxious")
  {
    var line := " I feel Anxious ";
    assert TrimStart(line) == "I feel Anxious ";
    assert TrimEnd("I feel Anxious ") == "I feel Anxious";
    assert |Lower("I feel Anxious")| == 14;
  }

  /** A conversation: the turns so far and whether the user has left. */
  datatype Session = Session(turns: seq<string>, ended: bool)

  /** The session at start-up and after `clear`. */
  const Start: Session := Session([SystemPrime], false)

  /** One iteration of the loop for the input `line`; `decoded` is the text
      the model produced for this exchange, which sampling makes arbitrary.
      A blank line changes nothing; an exit word ends the session and keeps
      the turns; a clear word goes back to the priming turn alone, however
      long the conversation was; an utterance appends exactly the user turn
      and the processed reply and leaves the earlier turns as they were. */
  function Step(s: Session, line: string, decoded: string): (r: Session)
    requires !s.ended
    ensures r.ended <==> Parse(line).Exit?
    ensures Parse(line).Blank? ==> r == s
    ensures Parse(line).Exit? ==> r.turns == s.turns
    ensures Parse(line).Clear? ==> r.turns == [SystemPrime]
    ensures Parse(line).Say? ==>
              && |r.turns| == |s.turns| + 2
              && r.turns[..|s.turns|] == s.turns
              && r.turns[|s.turns|] == UserTag + Strip(line)
              && r.turns[|s.turns| + 1] == AssistantTag + PostProcess(decoded)
  {
    match Parse(line)
    case Blank => s
    case Exit => Session(s.turns, true)
    case Clear => Start
    case Say(u) => Session(s.turns + [UserTurn(u), AssistantTurn(PostProcess(decoded))], false)
  }

  /** The shape the turn list keeps at the head of the loop: the priming turn,
      then user and assistant turns alternating, an odd count in all, and
      every stored reply non-empty and free of role markers. */
  predicate WellFormed(turns: seq<string>) {
    && |turns| % 2 == 1
    && turns[0] == SystemPrime
    && forall k | 1 <= k < |turns| ::
         if k % 2 == 1 then IsUserTurn(turns[k]) else StoredReply(turns[k])
  }

  /** An assistant turn holding a processed reply. */
  predicate StoredReply(t: string) {
    && |AssistantTag| < |t|
    && t[..|AssistantTag|] == AssistantTag
    && MarkerFree(t[|AssistantTag|..])
  }

  lemma StartWellFormed()
    ensures WellFormed(Start.turns)
  {
  }

  lemma StepKeepsWellFormed(s: Session, line: string, decoded: string)
    requires !s.ended && WellFormed(s.turns)
    ensures WellFormed(Step(s, line, decoded).turns)
  {
    if Parse(line).Say? {
      ExchangeKeepsWellFormed(s.turns, Parse(line).text, PostProcess(decoded));
    }
  }

  /** Appending a user turn and a processed reply keeps the shape. */
  lemma ExchangeKeepsWellFormed(turns: seq<string>, u: string, reply: string)
    requires WellFormed(turns) && reply != "" && MarkerFree(reply)
    ensures WellFormed(turns + [UserTurn(u), AssistantTurn(reply)])
  {
    var n := |turns|;
    var t := turns + [UserTurn(u), AssistantTurn(reply)];
    assert t[n + 1][|AssistantTag|..] == reply;
    assert StoredReply(t[n + 1]);
    assert IsUserTurn(t[n]);
    forall k | 1 <= k < n
      ensures if k % 2 == 1 then IsUserTurn(t[k]) else StoredReply(t[k])
    {
      assert t[k] == turns[k];
    }
  }

  /** The input of one loop iteration: the typed line and the text the model
      would produce if asked. */
  datatype Input = Input(line: string, decoded: string)

  /** The loop over a sequence of inputs, until an exit word. An ended
      session takes no further input, and a session never ends without an
      exit word among the inputs. */
  function Run(s: Session, inputs: seq<Input>): (r: Session)
    ensures s.ended ==> r == s
    ensures (forall i | 0 <= i < |inputs| :: !Parse(inputs[i].line).Exit?) ==> r.ended == s.ended
    decreases |inputs|
  {
    if s.ended || |inputs| == 0 then s
    else Run(Step(s, inputs[0].line, inputs[0].decoded), inputs[1..])
  }

  /** Whatever is typed, the turn list stays well formed; in particular the
      priming turn stays first and the count stays odd. */
  lemma {:induction false} RunKeepsWellFormed(s: Session, inputs: seq<Input>)
    requires WellFormed(s.turns)
    ensures WellFormed(Run(s, inputs).turns)
    decreases |inputs|
  {
    if !s.ended && |inputs| > 0 {
      StepKeepsWellFormed(s, inputs[0].line, inputs[0].decoded);
      RunKeepsWellFormed(Step(s, inputs[0].line, inputs[0].decoded), inputs[1..]);
    }
  }

  /** A running session ends exactly when some input line is an exit word. */
  lemma {:induction false} RunEndsOnExitOnly(s: Session, inputs: seq<Input>)
    requires !s.ended
    ensures Run(s, inputs).ended <==> exists i | 0 <= i < |inputs| :: Parse(inputs[i].line).Exit?
    decreases |inputs|
  {
    if |inputs| > 0 {
      var next := Step(s, inputs[0].line, inputs[0].decoded);
      if !next.ended {
        RunEndsOnExitOnly(next, inputs[1..]);
        if exists i | 0 <= i < |inputs| :: Parse(inputs[i].line).Exit? {
          var i :| 0 <= i < |inputs| && Parse(inputs[i].line).Exit?;
          assert i > 0;
          assert Parse(inputs[1..][i - 1].line).Exit?;
        }
        if exists i | 0 <= i < |inputs[1..]| :: Parse(inputs[1..][i].line).Exit? {
          var i :| 0 <= i < |inputs[1..]| && Parse(inputs[1..][i].line).Exit?;
          assert Parse(inputs[i + 1].line).Exit?;
        }
      }
    }
  }

  /** The prompt text rendered for the utterance `u`. */
  function PromptFor(turns: seq<string>, u: string): (p: string)
    requires |turns| >= 1
    ensures p == Body(FormatDialogue(turns)) + "\n" + UserTag + u + AssistantCue
  {
    FormatDialogueAppend(turns, UserTurn(u));
    FormatDialogue(turns + [UserTurn(u)])
  }

  /** The token input passed to the model for the utterance `u`: the
      tokenised prompt, left-trimmed to the budget of the context window.
      It never exceeds the budget, it is the most recent part of the full
      tokenisation, as long as the budget allows, and the mask stays aligned
      with the ids. */
  function GenerationInput(turns: seq<string>, u: string, tokenize: string -> Encoding, ctxWindow: int): (e: Encoding)
    requires |turns| >= 1
    ensures var full := tokenize(PromptFor(turns, u));
            var b := Budget(ctxWindow);
            && |e.ids| <= b
            && |e.ids| == (if |full.ids| <= b then |full.ids| else b)
            && e.ids == full.ids[|full.ids| - |e.ids|..]
            && (|full.ids| == |full.mask| ==> e.mask == full.mask[|full.mask| - |e.ids|..])
  {
    var full := tokenize(PromptFor(turns, u));
    var b := Budget(ctxWindow);
    var e := LeftTrim(full.ids, full.mask, b);
    assert |e.ids| == (if |full.ids| <= b then |full.ids| else b);
    e
  }
}

=== FILE: context.dfy ===
/** The context-window arithmetic of the chat loop: the token budget and the
    left trim that keeps only the most recent tokens of the prompt. */
module Context {
  import opened PyStr

  /** New tokens requested from each generation call. */
  const MaxNew: int := 128
  /** Tokens held back on top of `MaxNew`. */
  const SafetyMargin: int := 16
  /** Context window assumed when the model configuration has no `n_positions`. */
  const DefaultCtxWindow: int := 1024
  /** The budget never drops below this many prompt tokens. */
  const MinBudget: int := 32

  /** A tokenised prompt, batch dimension 1: token ids and attention mask. */
  datatype Encoding = Encoding(ids: seq<int>, mask: seq<int>)

  /** `getattr(model.config, "n_positions", 1024)`. */
  function CtxWindow(nPositions: Option<int>): int {
    match nPositions
    case None => DefaultCtxWindow
    case Some(n) => n
  }

  /** `max(32, ctx_window - max_new - 16)`: the number of prompt tokens kept.
      It is at least 32; when the window is large enough the prompt, the new
      tokens and the margin fill it exactly; below that it is pinned at 32,
      which is smaller than the window only when the window exceeds 32. */
  function Budget(ctxWindow: int): (b: int)
    ensures b >= MinBudget
    ensures ctxWindow >= MinBudget + MaxNew + SafetyMargin ==> b + MaxNew + SafetyMargin == ctxWindow
    ensures ctxWindow <= MinBudget + MaxNew + SafetyMargin ==> b == MinBudget
    ensures b < ctxWindow <==> ctxWindow > MinBudget
  {
    var b := ctxWindow - MaxNew - SafetyMargin;
    if MinBudget >= b then MinBudget else b
  }

  lemma DefaultBudget()
    ensures Budget(CtxWindow(None)) == 880
  {
  }

  /** Python's `s[start:]` for any integer `start`: a negative start counts
      from the end and is clamped at 0, a positive one is clamped at `|s|`. */
  function PySliceFrom<T>(s: seq<T>, start: int): (r: seq<T>)
    ensures |r| <= |s| && r == s[|s| - |r|..]
    ensures start < 0 && -start <= |s| ==> |r| == -start
    ensures start < 0 && -start > |s| ==> r == s
    ensures 0 <= start <= |s| ==> |r| == |s| - start
    ensures start > |s| ==> r == []
  {
    var lo := if start < 0 then (if |s| + start < 0 then 0 else |s| + start)
              else (if start > |s| then |s| else start);
    s[lo..]
  }

  /** The pitfall behind the guard `keep >= 1`: `ids[:, -0:]` keeps the whole
      row rather than none of it. */
  lemma NegativeZeroKeepsAll<T>(s: seq<T>)
    ensures PySliceFrom(s, -0) == s
  {
  }

  /** `left_trim(ids, mask, keep)`: when the ids are longer than `keep`,
      both rows are cut to their last `keep` elements; otherwise both are
      returned as they are. */
  function LeftTrim(ids: seq<int>, mask: seq<int>, keep: int): (r: Encoding)
    requires keep >= 1
    ensures |ids| <= keep ==> r == Encoding(ids, mask)
    ensures |ids| > keep ==> |r.ids| == keep && r.ids == ids[|ids| - keep..]
    ensures |ids| > keep && |mask| >= keep ==> r.mask == mask[|mask| - keep..]
    ensures |r.ids| <= keep && |r.ids| <= |ids|
    ensures |ids| == |mask| ==>
              |r.ids| == |r.mask| && r.ids == ids[|ids| - |r.ids|..] && r.mask == mask[|ids| - |r.ids|..]
  {
    if |ids| <= keep then Encoding(ids, mask)
    else Encoding(PySliceFrom(ids, -keep), PySliceFrom(mask, -keep))
  }

  /** Trimming a trimmed prompt changes nothing. */
  lemma LeftTrimIdempotent(ids: seq<int>, mask: seq<int>, keep: int)
    requires keep >= 1
    ensures var t := LeftTrim(ids, mask, keep);
            LeftTrim(t.ids, t.mask, keep) == t
  {
  }
}

=== FILE: dialogue.dfy ===
/** The turn list and its rendering into the prompt text (`format_dialogue`). */
module Dialogue {
  import opened PyStr

  /** The priming turn every conversation starts from (`SYSTEM_PRIME`). */
  const SystemPrime: string :=
    "System: You are a calm, empathetic mental-wellbeing assistant. "
    + "Validate feelings, ask one clarifying question if needed, suggest one small next step. "
    + "Do not diagnose. If crisis is indicated, advise contacting local emergency services."

  const UserTag: string := "User: "
  const AssistantTag: string := "Assistant: "
  /** Appended after the turns so that the model continues as the assistant. */
  const AssistantCue: string := "\nAssistant:"

  /** `f"User: {user}"`. */
  function UserTurn(u: string): (t: string)
    ensures |t| == |UserTag| + |u| && t[..|UserTag|] == UserTag && t[|UserTag|..] == u
  {
    UserTag + u
  }

  /** `f"Assistant: {reply}"`. */
  function AssistantTurn(reply: string): (t: string)
    ensures |t| == |AssistantTag| + |reply| && t[..|AssistantTag|] == AssistantTag && t[|AssistantTag|..] == reply
  {
    AssistantTag + reply
  }

  predicate IsUserTurn(t: string) {
    |UserTag| <= |t| && t[..|UserTag|] == UserTag
  }

  predicate IsAssistantTurn(t: string) {
    |AssistantTag| <= |t| && t[..|AssistantTag|] == AssistantTag
  }

  /** `format_dialogue(turns)`: the turns one per line, then the assistant
      cue. The prompt always ends with the cue, and it begins with the first
      turn. */
  function FormatDialogue(turns: seq<string>): (r: string)
    ensures |AssistantCue| <= |r| && r[|r| - |AssistantCue|..] == AssistantCue
    ensures |turns| == 0 ==> r == AssistantCue
    ensures |turns| == 1 ==> r == turns[0] + AssistantCue
    ensures |turns| >= 1 ==> |turns[0]| <= |r| && r[..|turns[0]|] == turns[0]
  {
    Join("\n", turns) + AssistantCue
  }

  /** The text in front of the cue. */
  function Body(prompt: string): string
    requires |AssistantCue| <= |prompt|
  {
    prompt[..|prompt| - |AssistantCue|]
  }

  /** Appending a turn to a non-empty list inserts one line in front of the
      cue and leaves the earlier text as it was. */
  lemma FormatDialogueAppend(turns: seq<string>, t: string)
    requires |turns| >= 1
    ensures FormatDialogue(turns + [t]) == Body(FormatDialogue(turns)) + "\n" + t + AssistantCue
  {
    JoinSnoc("\n", turns, t);
    var p := FormatDialogue(turns);
    assert Body(p) == Join("\n", turns);
  }

  /** When no turn spans several lines, the prompt determines the turns:
      splitting the text in front of the cue at the newlines returns them. */
  lemma FormatDialogueRecoversTurns(turns: seq<string>)
    requires |turns| >= 1
    requires forall k | 0 <= k < |turns| :: '\n' !in turns[k]
    ensures Split(Body(FormatDialogue(turns)), '\n') == turns
  {
    var p := FormatDialogue(turns);
    assert Body(p) == Join("\n", turns);
    SplitJoin(turns, '\n');
  }

  /** Two lists of single-line turns render to the same prompt only when they
      are equal. */
  lemma FormatDialogueInjective(a: seq<string>, b: seq<string>)
    requires |a| >= 1 && |b| >= 1
    requires forall k | 0 <= k < |a| :: '\n' !in a[k]
    requires forall k | 0 <= k < |b| :: '\n' !in b[k]
    requires FormatDialogue(a) == FormatDialogue(b)
    ensures a == b
  {
    FormatDialogueRecoversTurns(a);
    FormatDialogueRecoversTurns(b);
  }

  /** Without the single-line condition the turns are not recoverable: a
      turn holding a newline renders like two turns. */
  lemma MultiLineTurnsCollide()
    ensures FormatDialogue(["a\nb"]) == FormatDialogue(["a", "b"])
    ensures ["a\nb"] != ["a", "b"]
  {
    assert Join("\n", ["a", "b"]) == "a" + "\n" + Join("\n", ["b"]);
  }
}

=== FILE: pystr.dfy ===
/** Models of the Python `str` operations the chatbot relies on: `strip`,
    `lower`, the `in` substring test, `split(sep)[0]` and `sep.join`, plus a
    reference `split` on a single character used as the inverse of `join`. */
module PyStr {

  datatype Option<T> = None | Some(value: T)

  /* ---------------------------------------------------------------------- */
  /* Whitespace and strip                                                    */
  /* ---------------------------------------------------------------------- */

  /** The whitespace removed by `strip`: the ASCII blanks only. */
  predicate IsSpace(c: char) {
    c == ' ' || c == '\t' || c == '\n' || c == '\r' || c == '\U{000B}' || c == '\U{000C}'
  }

  /** Every character of `s` outside the index range `[i, j)` is whitespace. */
  predicate BlankOutside(s: string, i: int, j: int) {
    forall k | 0 <= k < |s| && (k < i || j <= k) :: IsSpace(s[k])
  }

  /** True when `strip` has nothing to remove from `s`. */
  predicate Stripped(s: string) {
    |s| == 0 || (!IsSpace(s[0]) && !IsSpace(s[|s| - 1]))
  }

  /** `s.lstrip()`: no longer than `s` and not starting with whitespace
      (`TrimStartRemovesBlanks` states what is removed). */
  function TrimStart(s: string): (r: string)
    ensures |r| <= |s|
    ensures |r| == 0 || !IsSpace(r[0])
    decreases |s|
  {
    if |s| > 0 && IsSpace(s[0]) then TrimStart(s[1..]) else s
  }

  /** `s.rstrip()`: no longer than `s` and not ending with whitespace
      (`TrimEndRemovesBlanks` states what is removed). */
  function TrimEnd(s: string): (r: string)
    ensures |r| <= |s|
    ensures |r| == 0 || !IsSpace(r[|r| - 1])
    decreases |s|
  {
    if |s| > 0 && IsSpace(s[|s| - 1]) then TrimEnd(s[..|s| - 1]) else s
  }

  /** `lstrip` keeps a suffix and removes whitespace only. */
  lemma {:induction false} TrimStartRemovesBlanks(s: string)
    ensures TrimStart(s) == s[|s| - |TrimStart(s)|..]
    ensures forall k | 0 <= k < |s| - |TrimStart(s)| :: IsSpace(s[k])
    decreases |s|
  {
    if |s| > 0 && IsSpace(s[0]) {
      var t := s[1..];
      TrimStartRemovesBlanks(t);
      assert t[|t| - |TrimStart(t)|..] == s[|s| - |TrimStart(t)|..];
      assert forall k | 1 <= k < |s| :: s[k] == t[k - 1];
    }
  }

  /** `rstrip` keeps a prefix and removes whitespace only. */
  lemma {:induction false} TrimEndRemovesBlanks(s: string)
    ensures TrimEnd(s) == s[..|TrimEnd(s)|]
    ensures forall k | |TrimEnd(s)| <= k < |s| :: IsSpace(s[k])
    decreases |s|
  {
    if |s| > 0 && IsSpace(s[|s| - 1]) {
      var t := s[..|s| - 1];
      TrimEndRemovesBlanks(t);
      assert t[..|TrimEnd(t)|] == s[..|TrimEnd(t)|];
      assert forall k | 0 <= k < |s| - 1 :: s[k] == t[k];
    }
  }

  /** `s.strip()`: no whitespace left at either end (see
      `StripRemovesOnlyBlanks` for what is removed). */
  function Strip(s: string): (r: string)
    ensures Stripped(r) && |r| <= |s|
  {
    StripRemovesOnlyBlanks(s);
    TrimEnd(TrimStart(s))
  }

  /** What `strip` keeps is an infix of its input. */
  lemma StripIsInfix(s: string)
    ensures Contains(s, Strip(s))
  {
    StripRemovesOnlyBlanks(s);
  }

  /** What `strip` removes, on either side of what it keeps, is whitespace. */
  lemma StripRemovesOnlyBlanks(s: string)
    ensures var r := TrimEnd(TrimStart(s));
            var i := |s| - |TrimStart(s)|;
            && Stripped(r)
            && 0 <= i <= |s| - |r|
            && OccursAt(s, r, i) && BlankOutside(s, i, i + |r|)
  {
    var u := TrimStart(s);
    var r := TrimEnd(u);
    TrimStartRemovesBlanks(s);
    TrimEndRemovesBlanks(u);
    InfixFacts(s, u, r);
    if |r| > 0 {
      assert r[0] == u[0];
    }
  }

  /** `r` is a prefix of the suffix `u` of `s`, with whitespace around it. */
  lemma InfixFacts(s: string, u: string, r: string)
    requires |u| <= |s| && u == s[|s| - |u|..]
    requires forall k | 0 <= k < |s| - |u| :: IsSpace(s[k])
    requires |r| <= |u| && r == u[..|r|]
    requires forall k | |r| <= k < |u| :: IsSpace(u[k])
    ensures OccursAt(s, r, |s| - |u|) && BlankOutside(s, |s| - |u|, |s| - |u| + |r|)
  {
    var i := |s| - |u|;
    assert s[i..i + |r|] == r;
    forall k | i + |r| <= k < |s|
      ensures IsSpace(s[k])
    {
      assert s[k] == u[k - i];
    }
  }

  lemma StripStripped(s: string)
    requires Stripped(s)
    ensures Strip(s) == s
  {
  }

  /** `strip` is idempotent. */
  lemma StripIdempotent(s: string)
    ensures Strip(Strip(s)) == Strip(s)
  {
    StripStripped(Strip(s));
  }

  /* ---------------------------------------------------------------------- */
  /* Substrings: `p in s`, `s.split(p)[0]`                                   */
  /* ---------------------------------------------------------------------- */

  /** `p` occurs in `s` starting at index `i`. */
  predicate OccursAt(s: string, p: string, i: int) {
    0 <= i && i + |p| <= |s| && s[i..i + |p|] == p
  }

  /** Python's `p in s`: the empty string occurs in every string, and no
      string occurs in a shorter one. */
  predicate Contains(s: string, p: string): (b: bool)
    ensures |p| == 0 ==> b
    ensures b ==> |p| <= |s|
  {
    assert |p| == 0 ==> OccursAt(s, p, 0);
    exists i | 0 <= i <= |s| - |p| :: OccursAt(s, p, i)
  }

  /** An occurrence of `p` inside an occurrence of `m` is an occurrence in `s`. */
  lemma OccursAtTrans(s: string, m: string, p: string, i: int, j: int)
    requires OccursAt(s, m, i) && OccursAt(m, p, j)
    ensures OccursAt(s, p, i + j)
  {
    forall k | 0 <= k < |p|
      ensures s[i + j + k] == p[k]
    {
      assert s[i + j + k] == s[i..i + |m|][j + k];
      assert m[j + k] == m[j..j + |p|][k];
    }
  }

  /** Containment is transitive; read backwards: an infix of a string free of
      `p` is free of `p`. */
  lemma ContainsTrans(s: string, m: string, p: string)
    requires Contains(s, m) && Contains(m, p)
    ensures Contains(s, p)
  {
    var i :| 0 <= i <= |s| - |m| && OccursAt(s, m, i);
    var j :| 0 <= j <= |m| - |p| && OccursAt(m, p, j);
    OccursAtTrans(s, m, p, i, j);
  }

  lemma ContainsPrefix(s: string, k: nat)
    requires k <= |s|
    ensures Contains(s, s[..k])
  {
    assert OccursAt(s, s[..k], 0);
  }

  /** The first occurrence of `p` in `s` at or after `from`. */
  function FindFrom(s: string, p: string, from: nat): (r: Option<nat>)
    ensures r.Some? ==> from <= r.value && OccursAt(s, p, r.value)
    ensures r.Some? ==> forall j | from <= j < r.value :: !OccursAt(s, p, j)
    ensures r.None? ==> forall j | from <= j :: !OccursAt(s, p, j)
    decreases |s| - from
  {
    if from + |p| > |s| then None
    else if s[from..from + |p|] == p then Some(from)
    else FindFrom(s, p, from + 1)
  }

  /** Python's `s.find(p)`, with `None` for -1. */
  function Find(s: string, p: string): (r: Option<nat>)
    ensures r.Some? <==> Contains(s, p)
    ensures r.Some? ==> OccursAt(s, p, r.value) && forall j | 0 <= j < r.value :: !OccursAt(s, p, j)
  {
    FindFrom(s, p, 0)
  }

  /** An occurrence of `p` before which the first character of `p` never
      appears is the first one. */
  lemma FindFirstOccurrence(s: string, p: string, k: nat)
    requires |p| > 0 && OccursAt(s, p, k)
    requires forall j | 0 <= j < k :: s[j] != p[0]
    ensures Find(s, p) == Some(k)
  {
    forall j | 0 <= j < k
      ensures !OccursAt(s, p, j)
    {
      assert s[j..j + |p|][0] == s[j];
    }
  }

  /** Python's `s.split(sep)[0]`: the prefix of `s` before the first
      occurrence of `sep`, or all of `s`. An empty `sep` raises in Python. */
  function SplitHead(s: string, sep: string): (r: string)
    requires |sep| > 0
    ensures |r| <= |s| && r == s[..|r|]
    ensures !Contains(r, sep)
    ensures Contains(s, sep) ==> OccursAt(s, sep, |r|)
    ensures forall j | 0 <= j < |r| :: !OccursAt(s, sep, j)
    ensures !Contains(s, sep) ==> r == s
  {
    match Find(s, sep)
    case None => s
    case Some(k) =>
      PrefixBeforeFirstIsFree(s, sep, k);
      s[..k]
  }

  /** The prefix in front of the first occurrence of `p` does not contain `p`. */
  lemma PrefixBeforeFirstIsFree(s: string, p: string, k: nat)
    requires |p| > 0 && k <= |s|
    requires forall j | 0 <= j < k :: !OccursAt(s, p, j)
    ensures !Contains(s[..k], p)
  {
    if Contains(s[..k], p) {
      var j :| 0 <= j <= k - |p| && OccursAt(s[..k], p, j);
      assert OccursAt(s, s[..k], 0);
      OccursAtTrans(s, s[..k], p, 0, j);
    }
  }

  /** A string without the character `c` contains no pattern that begins with `c`. */
  lemma NoCharNoOccurrence(s: string, p: string, c: char)
    requires |p| > 0 && p[0] == c && c !in s
    ensures !Contains(s, p)
  {

  }

  /* ---------------------------------------------------------------------- */
  /* Case                                                                    */
  /* ---------------------------------------------------------------------- */

  function LowerChar(c: char): char {
    if 'A' <= c <= 'Z' then (c as int - 'A' as int + 'a' as int) as char else c
  }

  /** `s.lower()`, restricted to the ASCII letters. */
  function Lower(s: string): (r: string)
    ensures |r| == |s|
    ensures forall k | 0 <= k < |s| :: r[k] == LowerChar(s[k])
  {
    seq(|s|, k requires 0 <= k < |s| => LowerChar(s[k]))
  }

  lemma LowerIdempotent(s: string)
    ensures Lower(Lower(s)) == Lower(s)
  {
  }

  /** Lower-casing commutes with `lstrip`. */
  lemma {:induction false} TrimStartLower(s: string)
    ensures TrimStart(Lower(s)) == Lower(TrimStart(s))
    decreases |s|
  {
    if |s| > 0 && IsSpace(s[0]) {
      assert Lower(s)[1..] == Lower(s[1..]);
      TrimStartLower(s[1..]);
    }
  }

  /** Lower-casing commutes with `rstrip`. */
  lemma {:induction false} TrimEndLower(s: string)
    ensures TrimEnd(Lower(s)) == Lower(TrimEnd(s))
    decreases |s|
  {
    if |s| > 0 && IsSpace(s[|s| - 1]) {
      assert Lower(s)[..|s| - 1] == Lower(s[..|s| - 1]);
      TrimEndLower(s[..|s| - 1]);
    }
  }

  /** Lower-casing commutes with `strip`: `line.strip().lower()` is
      `line.lower().strip()`. */
  lemma StripLower(s: string)
    ensures Strip(Lower(s)) == Lower(Strip(s))
  {
    TrimStartLower(s);
    TrimEndLower(TrimStart(s));
  }

  /* ---------------------------------------------------------------------- */
  /* join and split                                                          */
  /* ---------------------------------------------------------------------- */

  /** Python's `sep.join(ts)`: empty for no items, and otherwise beginning
      with the first item (`JoinSnoc` gives the rest). */
  function Join(sep: string, ts: seq<string>): (r: string)
    ensures |ts| == 0 ==> r == ""
    ensures |ts| >= 1 ==> |ts[0]| <= |r| && r[..|ts[0]|] == ts[0]
    decreases |ts|
  {
    if |ts| == 0 then ""
    else if |ts| == 1 then ts[0]
    else ts[0] + sep + Join(sep, ts[1..])
  }

  /** Python's `s.split(c)` for a one-character separator: the maximal
      `c`-free pieces between the separators, always at least one. */
  function Split(s: string, c: char): (r: seq<string>)
    ensures |r| >= 1
    ensures forall k | 0 <= k < |r| :: c !in r[k]
    decreases |s|
  {
    if |s| == 0 then [""]
    else
      var rest := Split(s[1..], c);
      if s[0] == c then [""] + rest
      else [[s[0]] + rest[0]] + rest[1..]
  }

  /** Appending one more item adds one separator and the item. */
  lemma {:induction false} JoinSnoc(sep: string, ts: seq<string>, t: string)
    requires |ts| >= 1
    ensures Join(sep, ts + [t]) == Join(sep, ts) + sep + t
    decreases |ts|
  {
    if |ts| == 1 {
      assert (ts + [t])[1..] == [t];
    } else {
      assert (ts + [t])[1..] == ts[1..] + [t];
      JoinSnoc(sep, ts[1..], t);
    }
  }

  /** Joining the pieces of a split restores the string. */
  lemma {:induction false} JoinSplit(s: string, c: char)
    ensures Join([c], Split(s, c)) == s
    decreases |s|
  {
    if |s| > 0 {
      var rest := Split(s[1..], c);
      JoinSplit(s[1..], c);
      if s[0] == c {
        assert Split(s, c)[1..] == rest;
        assert s == [c] + s[1..];
      } else {
        var r := Split(s, c);
        if |rest| == 1 {
          assert s == [s[0]] + rest[0];
        } else {
          assert r[1..] == rest[1..];
          assert Join([c], rest) == rest[0] + [c] + Join([c], rest[1..]);
          assert s == [s[0]] + s[1..];
        }
      }
    }
  }

  /** A `c`-free prefix followed by `c` splits off as one piece. */
  lemma {:induction false} SplitCons(a: string, c: char, b: string)
    requires c !in a
    ensures Split(a + [c] + b, c) == [a] + Split(b, c)
    decreases |a|
  {
    if |a| == 0 {
      assert a + [c] + b == [c] + b;
      assert ([c] + b)[1..] == b;
    } else {
      assert (a + [c] + b)[1..] == a[1..] + [c] + b;
      SplitCons(a[1..], c, b);
      assert [a[0]] + a[1..] == a;
    }
  }

  lemma {:induction false} SplitNoSeparator(a: string, c: char)
    requires c !in a
    ensures Split(a, c) == [a]
    decreases |a|
  {
    if |a| > 0 {
      SplitNoSeparator(a[1..], c);
      assert [a[0]] + a[1..] == a;
    }
  }

  /** Splitting a join of `c`-free items recovers the items. */
  lemma {:induction false} SplitJoin(ts: seq<string>, c: char)
    requires |ts| >= 1
    requires forall k | 0 <= k < |ts| :: c !in ts[k]
    ensures Split(Join([c], ts), c) == ts
    decreases |ts|
  {
    if |ts| == 1 {
      SplitNoSeparator(ts[0], c);
    } else {
      SplitJoin(ts[1..], c);
      SplitCons(ts[0], c, Join([c], ts[1..]));
      assert ts == [ts[0]] + ts[1..];
    }
  }
}

=== FILE: reply.dfy ===
/** Post-processing of the decoded model output: cut at the first marker that
    opens a new turn of any role, and fall back to a fixed sentence
    when nothing is left. */
module Reply {
  import opened PyStr

  const UserStop: string := "\nUser:"
  const SystemStop: string := "\nSystem:"
  const AssistantStop: string := "\nAssistant:"

  /** The canned reply used when the cut leaves nothing. It is written in
      short pieces so that the verifier can check it character by character. */
  const Fallback: string :=
    "It sounds " + "like you\U{2019}re " + "going " + "through a " + "tough " + "moment. "
    + "Could you " + "share a " + "bit more " + "about when " + "the anxiety " + "shows up " + "most?"

  /** None of the three role markers occurs in `s`. */
  predicate MarkerFree(s: string) {
    !Contains(s, UserStop) && !Contains(s, SystemStop) && !Contains(s, AssistantStop)
  }

  /** Every marker starts with a newline, so a single-line string is free of them. */
  lemma SingleLineIsMarkerFree(s: string)
    requires '\n' !in s
    ensures MarkerFree(s)
  {
    NoCharNoOccurrence(s, UserStop, '\n');
    NoCharNoOccurrence(s, SystemStop, '\n');
    NoCharNoOccurrence(s, AssistantStop, '\n');
  }

  lemma FallbackWellFormed()
    ensures Fallback != "" && Stripped(Fallback) && MarkerFree(Fallback)
  {
    SingleLineIsMarkerFree(Fallback);
  }

  /** A string free of `p` has no infix containing `p`. */
  lemma InfixStaysFree(s: string, m: string, p: string)
    requires Contains(s, m) && !Contains(s, p)
    ensures !Contains(m, p)
  {
    if Contains(m, p) {
      ContainsTrans(s, m, p);
    }
  }

  /** `strip` of a string that starts with a non-blank keeps a non-empty prefix. */
  lemma StripKeepsPrefix(s: string)
    requires |s| > 0 && !IsSpace(s[0])
    ensures |Strip(s)| >= 1 && Strip(s) == s[..|Strip(s)|]
  {
    assert TrimStart(s) == s;
    TrimEndRemovesBlanks(s);
  }

  /** One turn of the loop over the markers:
      `if stop in reply: reply = reply.split(stop)[0].strip()`. The result
      does not contain `stop` and is an infix of the input; without `stop`
      the input comes back unchanged, with it the result is the stripped text
      in front of the first occurrence. A stripped, non-blank input whose
      marker begins with a blank keeps a non-empty prefix. */
  function CutAt(reply: string, stop: string): (r: string)
    requires |stop| > 0
    ensures !Contains(r, stop)
    ensures Contains(reply, r)
    ensures !Contains(reply, stop) ==> r == reply
    ensures Contains(reply, stop) ==> Stripped(r) && r == Strip(reply[..Find(reply, stop).value])
    ensures Stripped(reply) && reply != "" && IsSpace(stop[0]) ==>
              Stripped(r) && |r| >= 1 && r == reply[..|r|]
  {
    if Contains(reply, stop) then
      var head := SplitHead(reply, stop);
      CutIsFreeInfix(reply, stop, head);
      CutKeepsPrefix(reply, stop, head);
      Strip(head)
    else
      ContainsSelf(reply);
      reply
  }

  lemma ContainsSelf(s: string)
    ensures Contains(s, s)
  {
    assert OccursAt(s, s, 0);
  }

  lemma CutIsFreeInfix(reply: string, stop: string, head: string)
    requires |stop| > 0 && head == SplitHead(reply, stop)
    ensures !Contains(Strip(head), stop) && Contains(reply, Strip(head))
  {
    ContainsPrefix(reply, |head|);
    StripIsInfix(head);
    ContainsTrans(reply, head, Strip(head));
    InfixStaysFree(head, Strip(head), stop);
  }

  lemma CutKeepsPrefix(reply: string, stop: string, head: string)
    requires |stop| > 0 && head == SplitHead(reply, stop) && Contains(reply, stop)
    ensures Stripped(reply) && reply != "" && IsSpace(stop[0]) ==>
              |Strip(head)| >= 1 && Strip(head) == reply[..|Strip(head)|]
  {
    if Stripped(reply) && reply != "" && IsSpace(stop[0]) {
      assert OccursAt(reply, stop, |head|);
      StripKeepsPrefix(head);
    }
  }

  /** chatbot.py's handling of the decoded text: strip, cut at the user, system
      and assistant markers in that order, and use the fallback if nothing is
      left. The result is non-empty, stripped and free of all three markers.
      Blank decoded text gives the fallback; any other text gives a non-empty
      prefix of its stripped form. */
  function PostProcess(decoded: string): (r: string)
    ensures r != "" && Stripped(r) && MarkerFree(r)
    ensures Strip(decoded) == "" ==> r == Fallback
    ensures Strip(decoded) != "" ==> |r| <= |Strip(decoded)| && r == Strip(decoded)[..|r|]
  {
    var r0 := Strip(decoded);
    var r1 := CutAt(r0, UserStop);
    var r2 := CutAt(r1, SystemStop);
    var r3 := CutAt(r2, AssistantStop);
    CutsAreMarkerFree(r1, r2, r3);
    if r3 == "" then
      FallbackWellFormed();
      Fallback
    else
      CutsArePrefixes(r0);
      r3
  }

  lemma CutsAreMarkerFree(r1: string, r2: string, r3: string)
    requires !Contains(r1, UserStop)
    requires Contains(r1, r2) && !Contains(r2, SystemStop)
    requires Contains(r2, r3) && !Contains(r3, AssistantStop)
    ensures MarkerFree(r3)
  {
    InfixStaysFree(r1, r2, UserStop);
    InfixStaysFree(r2, r3, UserStop);
    InfixStaysFree(r2, r3, SystemStop);
  }

  /** The three cuts of a stripped reply keep a prefix of it, unless nothing is left. */
  lemma CutsArePrefixes(r0: string)
    requires Stripped(r0)
    ensures var r3 := CutAt(CutAt(CutAt(r0, UserStop), SystemStop), AssistantStop);
            r3 != "" ==> r0 != "" && |r3| <= |r0| && r3 == r0[..|r3|]
  {
    var r1 := CutAt(r0, UserStop);
    var r2 := CutAt(r1, SystemStop);
    var r3 := CutAt(r2, AssistantStop);
    if r0 != "" {
      assert IsSpace(UserStop[0]) && IsSpace(SystemStop[0]) && IsSpace(AssistantStop[0]);
      PrefixTrans(r0, r1, r2);
      PrefixTrans(r0, r2, r3);
    }
  }

  lemma PrefixTrans(a: string, b: string, c: string)
    requires |b| <= |a| && b == a[..|b|]
    requires |c| <= |b| && c == b[..|c|]
    ensures c == a[..|c|]
  {
  }

  /* The three cuts together: one cut at the earliest marker. */

  /** Some role marker starts at index `j` of `s`. */
  predicate MarkerAt(s: string, j: int) {
    OccursAt(s, UserStop, j) || OccursAt(s, SystemStop, j) || OccursAt(s, AssistantStop, j)
  }

  /** The shape shared by the markers: a newline followed by at least one
      character, none of them whitespace. */
  predicate MarkerShape(p: string) {
    |p| >= 2 && p[0] == '\n' && forall k | 1 <= k < |p| :: !IsSpace(p[k])
  }

  lemma MarkersShaped()
    ensures MarkerShape(UserStop) && MarkerShape(SystemStop) && MarkerShape(AssistantStop)
  {
  }

  /** Where `p` first occurs in `s`, or `|s|` when it does not. */
  function FirstAt(s: string, p: string): (i: nat)
    ensures i <= |s|
    ensures forall j | 0 <= j < i :: !OccursAt(s, p, j)
    ensures i < |s| ==> OccursAt(s, p, i)
  {
    match Find(s, p)
    case Some(v) => v
    case None => |s|
  }

  /** The first index at which any of the three markers starts, or `|s|`. */
  function EarliestMarker(s: string): (m: nat)
    ensures m <= |s|
    ensures forall j | 0 <= j < m :: !MarkerAt(s, j)
    ensures m < |s| ==> MarkerAt(s, m)
  {
    var u := FirstAt(s, UserStop);
    var y := FirstAt(s, SystemStop);
    var a := FirstAt(s, AssistantStop);
    if u <= y && u <= a then u else if y <= a then y else a
  }

  /** The earliest marker is determined by where markers do and do not occur. */
  lemma EarliestMarkerUnique(s: string, m: nat)
    requires m <= |s|
    requires forall j | 0 <= j < m :: !MarkerAt(s, j)
    requires m < |s| ==> MarkerAt(s, m)
    ensures EarliestMarker(s) == m
  {
  }

  /** A marker-free string has no earliest marker. */
  lemma NoMarkerNoEarliest(s: string)
    requires MarkerFree(s)
    ensures EarliestMarker(s) == |s|
  {
    EarliestMarkerUnique(s, |s|);
  }

  /** The reply cut once, at the earliest marker of any kind. */
  function CutAtEarliest(s: string): string {
    Strip(s[..EarliestMarker(s)])
  }

  /** A cut at the first `stop` of a stripped, non-blank string keeps a
      non-empty prefix, followed up to the cut by blanks only. */
  lemma CutShape(s: string, stop: string)
    requires Stripped(s) && s != "" && MarkerShape(stop) && Contains(s, stop)
    ensures var f := Find(s, stop).value;
            var c := CutAt(s, stop);
            && f < |s| && s[f] == '\n'
            && 1 <= |c| <= f && c == s[..|c|]
            && forall k | |c| <= k < f :: IsSpace(s[k])
  {
    var f := Find(s, stop).value;
    assert s[f..f + |stop|][0] == s[f];
    var x := s[..f];
    assert x[0] == s[0];
    assert TrimStart(x) == x;
    TrimEndRemovesBlanks(x);
  }

  /** Occurrences in a prefix are the occurrences in the whole string that
      end inside the prefix. */
  lemma PrefixOccurrence(s: string, c: string, p: string, j: int)
    requires |c| <= |s| && c == s[..|c|]
    ensures OccursAt(c, p, j) <==> OccursAt(s, p, j) && j + |p| <= |c|
  {
    if 0 <= j && j + |p| <= |c| {
      assert c[j..j + |p|] == s[j..j + |p|];
    }
  }

  /** A marker that starts before the cut point `f` ends inside the kept
      prefix: it cannot run into the blanks after the prefix, nor into the
      newline at `f`. */
  lemma OccurrenceBeforeCutFits(s: string, cLen: int, f: int, p: string, j: int)
    requires 0 <= cLen <= f < |s| && s[f] == '\n'
    requires forall k | cLen <= k < f :: IsSpace(s[k])
    requires MarkerShape(p) && OccursAt(s, p, j) && j < f
    ensures j + |p| <= cLen
  {
    assert forall k | j <= k < j + |p| :: s[k] == p[k - j];
    assert s[j + 1] == p[1];
    assert IsSpace(s[cLen]);
  }

  /** In front of the cut point, the markers of the prefix are those of the
      whole string. */
  lemma MarkersBeforeCut(s: string, c: string, f: int, j: int)
    requires 0 <= |c| <= f < |s| && s[f] == '\n' && c == s[..|c|]
    requires forall k | |c| <= k < f :: IsSpace(s[k])
    ensures MarkerAt(c, j) ==> MarkerAt(s, j) && j < f
    ensures MarkerAt(s, j) && j < f ==> MarkerAt(c, j)
  {
    MarkersShaped();
    PrefixOccurrence(s, c, UserStop, j);
    PrefixOccurrence(s, c, SystemStop, j);
    PrefixOccurrence(s, c, AssistantStop, j);
    if j < f {
      if OccursAt(s, UserStop, j) {
        OccurrenceBeforeCutFits(s, |c|, f, UserStop, j);
      }
      if OccursAt(s, SystemStop, j) {
        OccurrenceBeforeCutFits(s, |c|, f, SystemStop, j);
      }
      if OccursAt(s, AssistantStop, j) {
        OccurrenceBeforeCutFits(s, |c|, f, AssistantStop, j);
      }
    }
  }

  /** After a cut at the marker starting at `f`, the earliest marker is the
      old one if it came before `f`, and there is none otherwise. */
  lemma EarliestInCut(s: string, c: string, f: int)
    requires 0 <= |c| <= f < |s| && s[f] == '\n' && c == s[..|c|]
    requires forall k | |c| <= k < f :: IsSpace(s[k])
    requires MarkerAt(s, f)
    ensures EarliestMarker(c) == if EarliestMarker(s) < f then EarliestMarker(s) else |c|
  {
    forall j | 0 <= j < |c|
      ensures MarkerAt(c, j) <==> MarkerAt(s, j) && j < f
    {
      MarkersBeforeCut(s, c, f, j);
    }
    var e := EarliestMarker(s);
    if e < f {
      MarkersBeforeCut(s, c, f, e);
      EarliestMarkerUnique(c, e);
    } else {
      EarliestMarkerUnique(c, |c|);
    }
  }

  /** The cut at the earliest marker survives a cut at a later or equal
      marker position `f`, stated over the shape of the cut alone. */
  lemma EarliestCutSurvives(s: string, c: string, f: int)
    requires 0 <= |c| <= f < |s| && s[f] == '\n' && c == s[..|c|]
    requires forall k | |c| <= k < f :: IsSpace(s[k])
    requires MarkerAt(s, f) && Stripped(c) && c == Strip(s[..f])
    ensures CutAtEarliest(c) == CutAtEarliest(s)
  {
    EarliestInCut(s, c, f);
    if EarliestMarker(s) < f {
      SameEarliestPrefix(s, c);
    } else {
      CutBeforeEarliest(s, c, f);
    }
  }

  /** A prefix that keeps the earliest marker has the same cut. */
  lemma SameEarliestPrefix(s: string, c: string)
    requires |c| <= |s| && c == s[..|c|]
    requires EarliestMarker(c) == EarliestMarker(s)
    ensures CutAtEarliest(c) == CutAtEarliest(s)
  {
    var e := EarliestMarker(s);
    assert c[..e] == s[..e];
  }

  /** A stripped cut at the earliest marker is its own cut. */
  lemma CutBeforeEarliest(s: string, c: string, f: int)
    requires EarliestMarker(c) == |c| && EarliestMarker(s) == f
    requires Stripped(c) && c == Strip(s[..f])
    ensures CutAtEarliest(c) == CutAtEarliest(s)
  {
    assert c[..|c|] == c;
    StripStripped(c);
  }

  /** Each cut of a stripped, non-blank reply leaves its cut at the earliest
      marker unchanged. */
  lemma CutKeepsEarliestCut(s: string, stop: string)
    requires Stripped(s) && s != ""
    requires stop == UserStop || stop == SystemStop || stop == AssistantStop
    ensures Stripped(CutAt(s, stop)) && CutAt(s, stop) != ""
    ensures CutAtEarliest(CutAt(s, stop)) == CutAtEarliest(s)
  {
    assert IsSpace(stop[0]);
    if Contains(s, stop) {
      var f := Find(s, stop).value;
      MarkersShaped();
      CutShape(s, stop);
      assert MarkerAt(s, f);
      EarliestCutSurvives(s, CutAt(s, stop), f);
    }
  }

  /** A stripped reply without markers is its own cut at the earliest marker. */
  lemma CleanIsOwnEarliestCut(r: string)
    requires Stripped(r) && MarkerFree(r)
    ensures CutAtEarliest(r) == r
  {
    NoMarkerNoEarliest(r);
    assert r[..|r|] == r;
    StripStripped(r);
  }

  /** Three cuts in the order of the source equal one cut at the earliest
      marker of any kind: the order of the markers does not matter. */
  lemma ThreeCutsAreEarliestCut(r0: string)
    requires Stripped(r0) && r0 != ""
    ensures CutAt(CutAt(CutAt(r0, UserStop), SystemStop), AssistantStop) == CutAtEarliest(r0)
  {
    var r1 := CutAt(r0, UserStop);
    var r2 := CutAt(r1, SystemStop);
    var r3 := CutAt(r2, AssistantStop);
    CutKeepsEarliestCut(r0, UserStop);
    CutKeepsEarliestCut(r1, SystemStop);
    CutKeepsEarliestCut(r2, AssistantStop);
    CutsAreMarkerFree(r1, r2, r3);
    CleanIsOwnEarliestCut(r3);
  }

  /** Post-processing trims non-blank decoded text at the first occurrence of
      any role marker. */
  lemma PostProcessCutsAtEarliestMarker(decoded: string)
    requires Strip(decoded) != ""
    ensures var r0 := Strip(decoded);
            PostProcess(decoded) == Strip(r0[..EarliestMarker(r0)])
  {
    ThreeCutsAreEarliestCut(Strip(decoded));
  }

  /** A stripped, non-empty reply without markers passes through unchanged. */
  lemma PostProcessKeepsCleanReply(s: string)
    requires Stripped(s) && s != "" && MarkerFree(s)
    ensures PostProcess(s) == s
  {
    StripStripped(s);
  }

  /** Decoded text without markers comes back stripped and otherwise unchanged,
      unless it is blank. */
  lemma PostProcessMarkerFreeText(decoded: string)
    requires MarkerFree(decoded) && Strip(decoded) != ""
    ensures PostProcess(decoded) == Strip(decoded)
  {
    var s := Strip(decoded);
    StripIsInfix(decoded);
    InfixStaysFree(decoded, s, UserStop);
    InfixStaysFree(decoded, s, SystemStop);
    InfixStaysFree(decoded, s, AssistantStop);
    PostProcessKeepsCleanReply(s);
  }

  /** Post-processing a processed reply changes nothing. */
  lemma PostProcessIdempotent(decoded: string)
    ensures PostProcess(PostProcess(decoded)) == PostProcess(decoded)
  {
    PostProcessKeepsCleanReply(PostProcess(decoded));
  }

  /** Whichever marker comes first decides the cut, not the order of the cuts. */
  lemma PostProcessCutsAtFirstMarker()
    ensures PostProcess("Ok.\nSystem: a\nUser: b") == "Ok."
  {
    SystemMarkerFirstCut("Ok.\nSystem: a\nUser: b");
  }

  lemma SystemMarkerFirstCut(s: string)
    requires s == "Ok.\nSystem: a\nUser: b"
    ensures PostProcess(s) == "Ok."
  {
    assert s[3..3 + |SystemStop|] == SystemStop;
    PostProcessAtFirstNewlineMarker(s, 3, SystemStop);
    assert s[..3] == "Ok.";
    StripStripped("Ok.");
  }

  /** For stripped, non-blank text, post-processing is the cut at the
      earliest marker. */
  lemma PostProcessOfStripped(s: string)
    requires Stripped(s) && s != ""
    ensures PostProcess(s) == CutAtEarliest(s)
  {
    StripStripped(s);
    PostProcessCutsAtEarliestMarker(s);
  }

  /** Stripped text is cut at a marker with no newline in front of it. */
  lemma PostProcessAtFirstNewlineMarker(s: string, k: nat, p: string)
    requires Stripped(s) && s != ""
    requires p == UserStop || p == SystemStop || p == AssistantStop
    requires OccursAt(s, p, k)
    requires forall j | 0 <= j < k :: s[j] != '\n'
    ensures PostProcess(s) == Strip(s[..k])
  {
    FirstNewlineMarker(s, k, p);
    PostProcessOfStripped(s);
  }

  /** A marker with no newline in front of it is the earliest one. */
  lemma FirstNewlineMarker(s: string, k: nat, p: string)
    requires p == UserStop || p == SystemStop || p == AssistantStop
    requires OccursAt(s, p, k)
    requires forall j | 0 <= j < k :: s[j] != '\n'
    ensures EarliestMarker(s) == k
  {
    forall j | 0 <= j < k
      ensures !MarkerAt(s, j)
    {
      NoNewlineNoMarker(s, j);
    }
    EarliestMarkerUnique(s, k);
  }

  /** Every marker starts with a newline. */
  lemma NoNewlineNoMarker(s: string, j: int)
    requires 0 <= j < |s| && s[j] != '\n'
    ensures !MarkerAt(s, j)
  {
    assert j + |UserStop| <= |s| ==> s[j..j + |UserStop|][0] == s[j];
    assert j + |SystemStop| <= |s| ==> s[j..j + |SystemStop|][0] == s[j];
    assert j + |AssistantStop| <= |s| ==> s[j..j + |AssistantStop|][0] == s[j];
  }

  /** The model answering for the user is cut off at the marker. */
  lemma PostProcessCutsUserTurn()
    ensures PostProcess("Sure thing.\nUser: thanks") == "Sure thing."
  {
    var s := "Sure thing.\nUser: thanks";
    var head := "Sure thing.";
    StripStripped(s);
    CutUserExample(s, head);
    assert CutAt(head, SystemStop) == head;
    assert CutAt(head, AssistantStop) == head;
  }

  lemma CutUserExample(s: string, head: string)
    requires s == "Sure thing.\nUser: thanks" && head == "Sure thing."
    ensures CutAt(s, UserStop) == head && head != "" && MarkerFree(head)
  {
    FirstMarkerAt(s, 11);
    assert s[..11] == head;
    StripStripped(head);
    SingleLineIsMarkerFree(head);
  }

  /** In `"Sure thing.\nUser: thanks"` the user marker first occurs at index 11. */
  lemma FirstMarkerAt(s: string, k: nat)
    requires s == "Sure thing.\nUser: thanks" && k == 11
    ensures Contains(s, UserStop) && Find(s, UserStop) == Some(k)
  {
    assert s[k..k + |UserStop|] == UserStop;
    assert OccursAt(s, UserStop, k);
    FindFirstOccurrence(s, UserStop, k);
  }
}
